=== FILE: README.md ===
# Titan X fitness: the deterministic core in Dafny

This project models the logic inside the Titan X fitness web app. It leaves out the pages around that logic.

- **Level engine.** A ten-row level table. An XP formula over the tracked quantities. The "highest level whose threshold the XP reaches" lookup, the next-level lookup, and the progress bar computation.
- **Rule-based coach.** A five-way priority cascade: RECOVERY > QUICK_HIT > COMEBACK > ON_FIRE > BEAST_MODE. It picks a message pool and a suggested task.
- **Features.** The "streak", which counts distinct active days. The eight-entry achievement catalogue. The hour-based greeting and the quote of the day.
- **Workout plan and session.** The fixed eight-step plan, and the guided session. The session is a state machine with the phases preview, active, rest and complete, driven by start, set-done, skip-rest, pause-toggle and a one-second tick. The `m:ss` time formatter belongs here too.
- **Dashboard.** The capped newest-first activity log and energy cycling. The coach context mapping and the water button. The modal submit rules and the settings edits. The load/save round trip and the derived streak/achievements/XP.

Everything is a pure function over immutable datatypes, in one module per source file:

| module | file | models |
|---|---|---|
| `Wrappers` | wrappers.dfy | `Option` for `undefined`/`null` and optional fields |
| `Numbers` | numbers.dfy | JavaScript's truncating `%` and the decimal text of `${n}` for integers |
| `Stats` | stats.dfy | the six-field record read by the XP formula and the achievements |
| `TitanLevels` | levels.dfy | app/lib/titan-levels.ts |
| `Coach` | coach.dfy | app/lib/ai-logic.ts |
| `Features` | features.dfy | app/lib/features.ts |
| `WorkoutPlan` | plan.dfy | app/workout/data.ts |
| `WorkoutSession` | session.dfy | app/workout/page.tsx |
| `SessionExamples` | session_examples.dfy | traces of the session over the real plan |
| `Dashboard` | dashboard.dfy | the state updates of app/dashboard/dashboard-client.tsx |

These stand in for the clock, randomness and the browser:

- **Random message.** `Math.random()` becomes an explicit message index `pick` with `pick < 5`.
- **Streak days.** The streak takes a day-key function `dayKey`. It stands for `new Date(a.timestamp || Date.now()).toDateString()`.
- **Greeting and quote.** The greeting takes the hour. The daily quote takes the day of the year.
- **Dashboard updates.** They take a `Clock`, holding `Date.now()` and the "HH:MM" text. They also take a `numberText` function, standing for JavaScript's number-to-text conversion.
- **Timer.** The session's `setInterval` effect becomes an explicit `Tick` event.

Things the proofs bring out about the source:

- **Streak cap.** The activity log is cut to five entries, and it starts with one. So on a dashboard that was not loaded with a longer log, the streak is at most 5. The 7-day achievement can never unlock (`Dashboard.CappedLogLimitsStreak`).
- **Streak of one.** Log timestamps are the "HH:MM" text of the entry's time, and the first entry is stamped "Just now". The streak turns these with `new Date(...)` into day keys, which are all "Invalid Date". So every entry has the same day key, and a non-empty log has streak 1; the 3-day achievement cannot unlock either (`Dashboard.TimeOnlyStampsGiveOneDay`).
- **Negative progress.** The calories form accepts a negative number and adds it. Enough negative calories make the XP negative. The level card's progress percentage is then below 0 %, and it is used directly as the bar width and the "% to next level" text (`Dashboard.NegativeCaloriesNegativeProgress`, `TitanLevels.ProgressToNextLevel`).
- **Workout count.** No dashboard action changes the workout count; only loading sets it (`Dashboard.ApplyKeepsCapAndWorkouts`).
- **Coach context.** The coach's streak is the workout count, and its "worked out yesterday" means "any workouts recorded". With the fixed 30 minutes and enough rest, a user with no workouts always gets the comeback pool (`Dashboard.RestedCoach`).
- **Water above the cap.** If a stored water value is above 5 litres, the water button lowers it to 5 (`Dashboard.AddWater`).
- **Pause button.** In a timed active step, the primary button is labelled PAUSE/RESUME, but it calls `handleSetComplete`. The model follows the code: that button is the `SetDone` event.
- **Unparseable stored data.** The load effect does not catch a `JSON.parse` failure. The model starts from the parsed record, or from "nothing stored".
- **Activity names.** `toggleEnergy` passes the new level's text to the log, not the old one (`Dashboard.ToggleEnergy`).

## Model

| member | source | states |
|---|---|---|
| Numbers.JsRem | app/lib/features.ts:120 | JavaScript's `%` for a positive divisor: equal to Dafny's `%` for a non-negative dividend, in (-b, 0] for a negative one, with the dividend's sign |
| Numbers.JsRemOdd | app/lib/features.ts:120 | the remainder of a negated dividend is the negated remainder, which fixes `JsRem` for negative dividends (truncation toward zero) |
| Numbers.NatToString | app/workout/page.tsx:107 | the template text of a number is a non-empty digit string with no leading zero, one digit exactly below 10 and at most two below 100 |
| Numbers.ParseNatToString | app/workout/page.tsx:104-108 | reading back the decimal text of any natural number gives the number (the text is faithful) |
| Numbers.IntToString | app/lib/ai-logic.ts:80 | the `${n}` text of an integer: digits that read back as the value with no leading zero (only 0 itself starts with '0'); a negative value gets a minus sign followed by the magnitude's digits, again with no leading zero |
| TitanLevels.Table | app/lib/titan-levels.ts:11-22 | the table has 10 rows, row i has level i+1, level 1 needs 0 XP, and thresholds strictly increase |
| TitanLevels.CalculateXP | app/lib/titan-levels.ts:24-53 | the XP lies within 3 below the exact weighted sum (50/workout, 1 per 100 kcal, 10/litre, 20/hour, 30/streak day) plus the 5-point weight bonus, and is at least 50·workouts + 30·streak for non-negative input |
| TitanLevels.XPMonotone | app/lib/titan-levels.ts:24-53 | raising any input (others fixed or also raised) never lowers the XP |
| TitanLevels.ScanDown | app/lib/titan-levels.ts:56-61 | the downward scan stops at the highest index at or below its start whose threshold the XP reaches, or at 0 |
| TitanLevels.CurrentLevel | app/lib/titan-levels.ts:55-62 | the result is a table row; for xp ≥ 0 its threshold is ≤ xp and the next row's threshold is > xp; negative XP gives level 1 |
| TitanLevels.CurrentLevelIsReached | app/lib/titan-levels.ts:55-62 | `CurrentLevel(xp)` is row k exactly when row k is the highest row whose threshold xp reaches (independent characterisation, both directions) |
| TitanLevels.CurrentLevelMonotone | app/lib/titan-levels.ts:56-61 | more XP never gives a lower level |
| TitanLevels.CurrentLevelExamples | app/lib/titan-levels.ts:56-61 | 0 and 99 XP are level 1, 100 is level 2, 19999 is level 9, 20000 is level 10 |
| TitanLevels.NextLevel | app/lib/titan-levels.ts:64-67 | for 0 ≤ n < 10 it is exactly the table row at index n, which has level n+1 and a higher threshold than level n; absent for n ≥ 10 and for a negative n |
| TitanLevels.Percent | app/lib/titan-levels.ts:79 | a share of a positive span, taken as a percentage, lies in [0, 100); a negative share gives a negative percentage |
| TitanLevels.ProgressToNextLevel | app/lib/titan-levels.ts:69-86 | at level 10 the result is (xp, xp, 100) with no division; below it the span is positive and equals the gap between the two thresholds, and the percentage is exactly current / span · 100, so the cap at 100 never applies; for xp ≥ 0, 0 ≤ current < span and the percentage is in [0, 100); for negative XP the percentage is negative; it never exceeds 100 |
| Coach.Pool | app/lib/ai-logic.ts:13-58 | every category's pool holds exactly 5 messages |
| Coach.FirstApplicable | app/lib/ai-logic.ts:63-107 | the returned position holds the first category in the list whose rule fires, and no earlier rule fires |
| Coach.Chosen | app/lib/ai-logic.ts:63-107 | exactly one category is selected: RECOVERY iff sleep is bad or energy low; QUICK_HIT iff not recovery and ≤ 20 minutes; COMEBACK iff neither and no workout yesterday; ON_FIRE iff none of those and streak > 5; BEAST_MODE otherwise |
| Coach.GetAIResponse | app/lib/ai-logic.ts:60-108 | the message is the drawn, in-bounds element of the pool of the category the priority order selects |
| Coach.TaskText | app/lib/ai-logic.ts:66-100 | a HIIT blast's suggestion is its minutes followed by " min HIIT Blast"; the leading digits read back as the minutes and, for positive minutes, do not start with 0 |
| Coach.SuggestedTask | app/lib/ai-logic.ts:64-107 | recovery suggests breathing exactly when under 10 minutes are available and mobility otherwise; only the quick hit names minutes, and it names the available ones; comeback, on-fire and beast mode have their fixed tasks |
| Coach.SuggestionFollowsPriority | app/lib/ai-logic.ts:64-107 | the suggestion is the selected category's task: breathing under 10 minutes and mobility otherwise for recovery, "<minutes> min HIIT Blast", wake-up circuit, PR attempt, heavy lifts |
| Coach.SleepDominates | app/lib/ai-logic.ts:63-73 | bad sleep with high energy, 60 minutes, yesterday done and streak 10 still yields a recovery message and "10 min Mobility Flow" |
| Coach.StreakBeforeDefault | app/lib/ai-logic.ts:93-101 | good sleep, high energy, 60 minutes, yesterday done and streak 10 yields ON_FIRE, not BEAST_MODE |
| Coach.QuickHitNamesMinutes | app/lib/ai-logic.ts:75-82 | ten minutes yields a quick-hit message and the text "10 min HIIT Blast" |
| Features.Greeting | app/lib/features.ts:12-17 | "Good Morning" iff hour < 12, "Good Afternoon" iff 12 ≤ hour < 18, "Good Evening" iff hour ≥ 18 |
| Features.DaysOf | app/lib/features.ts:28-30 | the set holds exactly the day keys of the activities and is no larger than the list |
| Features.CalculateStreak | app/lib/features.ts:19-33 | the streak is the number of distinct days, 0 exactly for an empty list, never more than the list length |
| Features.StreakCons | app/lib/features.ts:28-32 | another entry on a day already present leaves the streak unchanged; one on a new day adds exactly one (days need not be consecutive) |
| Features.OneDayStreak | app/lib/features.ts:22-32 | a non-empty list whose entries share one day has streak 1, whatever today is |
| Features.CheckAchievements | app/lib/features.ts:35-103 | always 8 entries in the fixed id order; each flag holds exactly at its threshold (workouts ≥ 1, ≥ 5, water ≥ 3, calories ≥ 2500, sleep ≥ 8, streak ≥ 3, ≥ 7, workouts ≥ 20) |
| Features.AchievementImplications | app/lib/features.ts:49-98 | titan_status implies week_warrior implies first_workout, and streak_7 implies streak_3 |
| Features.AchievementsMonotone | app/lib/features.ts:43-100 | larger stats never lock an achievement that smaller stats unlock |
| Features.HydrationBoundary | app/lib/features.ts:63 | 2.999 litres does not unlock hydration_hero; 3.0 does |
| Features.DailyQuote | app/lib/features.ts:118-121 | for day ≥ 0 the quote is the list entry at day mod 10 (always in bounds); a negative day reads undefined unless its remainder is zero, and a negative multiple of 10 reads the first quote (JavaScript's -0 index) |
| Features.DailyQuotePeriodic | app/lib/features.ts:118-121 | the quote repeats every ten days |
| WorkoutPlan.SetLimit | app/workout/page.tsx:62 | every set number below the limit has sets remaining and the limit has none; the limit is at least 1 |
| WorkoutPlan.DurationOrDefault | app/workout/page.tsx:53 | a non-zero duration is used, otherwise 60 seconds |
| WorkoutPlan.RestOrDefault | app/workout/page.tsx:65 | a non-zero rest is used, otherwise 30 seconds |
| WorkoutPlan.Plan | app/workout/data.ts:13-89 | 8 steps with distinct ids; each has a duration or a rep label; each step with sets has 3 and a rest; warm-ups at 0-2, exercises at 3-5, cool-downs at 6-7 |
| WorkoutSession.StartStep | app/workout/page.tsx:50-56 | the phase becomes active on the same step and set; a timed step runs its countdown from its duration (60 if zero); a rep-based step starts no timer |
| WorkoutSession.CompleteStep | app/workout/page.tsx:98-102 | the next step's preview at set 1, timer untouched |
| WorkoutSession.HandleSetComplete | app/workout/page.tsx:58-84 | with sets left: rest on the same set for the step's rest (30 default); finished with a next step: an exercise rests 60 s, a warm-up or cool-down goes to the next preview at set 1 without rest; finished last step: complete, timer stopped |
| WorkoutSession.NextPhase | app/workout/page.tsx:86-96 | after a rest with sets left, the same step becomes active at the next set number and a timed step restarts its countdown from its duration (60 if zero), running; otherwise the next step's preview at set 1; timer and running flag are untouched unless the countdown restarts |
| WorkoutSession.HandleTimerComplete | app/workout/page.tsx:39-48 | stops the timer, then a rest ends through `nextPhase` and a timed active set through `handleSetComplete`; otherwise only the timer stops |
| WorkoutSession.TickOnce | app/workout/page.tsx:27-37 | a running countdown above zero loses exactly one second and nothing else; at zero while running the timer completion fires; a stopped timer changes nothing |
| WorkoutSession.Next | app/workout/page.tsx:148-226 | each event acts only in the view that offers it: START in a preview, the primary button while active, Skip during a rest, the stop/resume link in a timed active step; elsewhere the state is unchanged; the tick always runs the timer effect |
| WorkoutSession.InitialValid | app/workout/page.tsx:14-18 | the starting state (step 0, preview, set 1, timer 0, stopped) satisfies the session invariant over the real plan |
| WorkoutSession.NextPreservesValid | app/workout/page.tsx:62-102 | every event keeps 0 ≤ step index < plan length, 1 ≤ set ≤ max(sets, 1), no timer in preview, complete or rep-based sets, and a rest always followed by another set or a next step |
| WorkoutSession.TogglePauseOnlyFlips | app/workout/page.tsx:222-226 | the pause link flips only the running flag, and two toggles restore the state |
| WorkoutSession.CompleteIsTerminal | app/workout/page.tsx:112-132 | no event changes a completed session |
| WorkoutSession.Run | app/workout/page.tsx:13-18 | any sequence of events from a valid state ends in a valid state |
| WorkoutSession.CompleteStaysComplete | app/workout/page.tsx:112-132 | any sequence of events leaves a completed session unchanged |
| WorkoutSession.FormatTime | app/workout/page.tsx:104-108 | for a non-negative count the text has the shape m:ss; the seconds field is below 60; minutes · 60 + seconds equals the count, so the minutes are the whole minutes; and the minutes have no leading zero (a text starting with 0 is exactly "0:ss") |
| WorkoutSession.FormatTimeRoundTrip | app/workout/page.tsx:104-108 | reading the m:ss text back gives the count, and its seconds field is below 60, so the split is the unique minutes/seconds one |
| SessionExamples.PushUpsTrace | app/workout/page.tsx:58-102 | push-ups: done and skip step through sets 1-3 on the same step with 60 s rests, then a 60 s rest before the squats preview |
| SessionExamples.WarmupTrace | app/workout/page.tsx:50-84 | the first warm-up counts down from 30 and, when done, goes straight to the next preview |
| SessionExamples.CountdownTrace | app/workout/page.tsx:27-48 | ticks count 2, 1, 0 and the tick at zero on the last step completes the workout |
| Dashboard.InitialDashboard | app/dashboard/dashboard-client.tsx:40-65 | the starting log has one entry and the name is the provider's |
| Dashboard.AddActivity | app/dashboard/dashboard-client.tsx:127-135 | the new entry is first, followed by the previous entries in order, and the log is cut to min(old length + 1, 5) |
| Dashboard.NewActivity | app/dashboard/dashboard-client.tsx:128-133 | a new entry carries the creation time as id, its "HH:MM" text as timestamp, and the given name and type |
| Dashboard.NextEnergy | app/dashboard/dashboard-client.tsx:182-184 | toggling always changes the energy level |
| Dashboard.EnergyCycle | app/dashboard/dashboard-client.tsx:182-184 | three toggles return to the start and two do not |
| Dashboard.EnergyFollowsLevelOrder | app/dashboard/dashboard-client.tsx:183-184 | the level after position i of [low, mid, high] is the one at position (i + 1) mod 3, so the cycle runs low → mid → high → low |
| Dashboard.EnergyText | app/dashboard/dashboard-client.tsx:186 | the logged text is "LOW", "MID" or "HIGH", each exactly for its own level |
| Dashboard.ToggleEnergy | app/dashboard/dashboard-client.tsx:182-187 | the energy advances, one entry naming the new level is logged, nothing else changes |
| Dashboard.SleepQualityOf | app/dashboard/dashboard-client.tsx:118 | below 6 hours is bad, above 8 good, 6 to 8 ok |
| Dashboard.CoachContext | app/dashboard/dashboard-client.tsx:115-122 | energy and minutes pass through, the sleep quality comes from the hours, "yesterday" means workouts > 0, and the streak is the workout count |
| Dashboard.PoorRestMeansRecovery | app/dashboard/dashboard-client.tsx:115-123 | under 6 hours of sleep or low energy, the dashboard's coach always answers from the recovery pool |
| Dashboard.RestedCoach | app/dashboard/dashboard-client.tsx:115-123 | rested and at 30 minutes, no workouts gives the comeback pool and more than five gives the on-fire pool |
| Dashboard.AddWater | app/dashboard/dashboard-client.tsx:138-144 | water never exceeds 5, rises by 0.25 up to the cap, never falls from at or below 5; exactly one water entry named "Hydration +250ml" is logged and nothing else changes |
| Dashboard.ModalSubmit | app/dashboard/dashboard-client.tsx:152-172 | settings, NaN input and modals with no rule change nothing; weight and sleep overwrite, calories accumulate; each accepted update logs exactly one entry, named "Weight Update: <v>lbs", "Nutrition +<v>kcal" or "Sleep Logged: <v>hrs", and changes nothing else |
| Dashboard.CaloriesAccumulateWeightOverwrites | app/dashboard/dashboard-client.tsx:158-165 | two calorie entries add up; of two weight entries the last one stays |
| Dashboard.ApplySettingsEdit | app/dashboard/dashboard-client.tsx:495-522 | the name edit replaces the name only; each goal edit sets its own goal to the parsed value, with NaN as 0, and keeps the other goals and every other field (the sleep goal is never edited) |
| Dashboard.Apply | app/dashboard/dashboard-client.tsx:174-179 | each user action runs its handler; saving the settings logs one "System Protocols Updated" entry and exporting logs one "Data Exported" entry, with nothing else changed |
| Dashboard.ApplyKeepsCapAndWorkouts | app/dashboard/dashboard-client.tsx:127-187 | no action changes the workout count or the minutes available, and a capped log stays capped at 5 |
| Dashboard.Save | app/dashboard/dashboard-client.tsx:110-113 | the snapshot holds a value for every persisted field; energy and minutes are not in it |
| Dashboard.Load | app/dashboard/dashboard-client.tsx:74-88 | nothing stored gives the initial state; each stored number is used and a missing one reads as 0; a stored log or goals replace the defaults and a missing one keeps them; a non-empty stored name is used, a missing or empty one keeps the provider's; energy and minutes keep their defaults |
| Dashboard.SaveLoadRoundTrip | app/dashboard/dashboard-client.tsx:74-113 | save then load reproduces every persisted field, except that an empty name becomes the provider's; energy and minutes reset |
| Dashboard.Derive | app/dashboard/dashboard-client.tsx:94-107 | the streak is the number of distinct days of the current log (at most its length); the achievements are the catalogue evaluated on the current metrics and that streak, so the streak flags follow it; the XP is the metrics' XP plus 30 per streak day; the level is the current level of that XP, with its threshold at most the XP |
| Dashboard.CappedLogLimitsStreak | app/dashboard/dashboard-client.tsx:98-106 | with at most 5 log entries the streak is at most 5, streak_7 stays locked, and the streak adds at most 150 XP |
| Dashboard.TimeOnlyStampsGiveOneDay | app/dashboard/dashboard-client.tsx:98-101 | when every log entry maps to the same day key, as the unparseable clock-text timestamps do, a non-empty log has streak 1 and the three-day achievement stays locked |
| Dashboard.NegativeCaloriesNegativeProgress | app/dashboard/dashboard-client.tsx:152-164 | a −10000 kcal entry on a fresh dashboard gives negative XP and a negative progress percentage on the level card |

## Left out

- Rendering, styles, icons and the marketing, login, signup, pricing, exercises and features pages. They contain no logic of the core.
- The mobile navigation and modal chrome. These are DOM listeners and an open/close flag.
- The dashboard's server page and the auth action. They call an external identity provider whose code is not part of this model.
- `exportDashboardData`: the Blob/URL/DOM download is I/O. Only the "Data Exported" log entry is modelled.
- `localStorage` and JSON text. Persistence is the `Stored` record round trip, and a blob that fails to parse is not modelled.
- Date and time parsing. Day keys, the hour and the day of the year are parameters. The id and "HH:MM" text of a new entry come from the `Clock` parameter.
- JavaScript number-to-text for fractional values in activity names. It is the `numberText` parameter.
- React effect scheduling and state batching. Each handler is one transition on one state value; the stale-closure first `updateAI` call on mount is not modelled.
- Non-numeric JSON field types in a stored record. The `Stored` fields are typed.
- Coach.GetAIResponse: the ON_FIRE branch draws a second random index after the BEAST_MODE one. Both draws are uniform over five messages, and the model uses the single `pick` for whichever message is returned.
- Dashboard.AddWater: `toFixed(2)` rounding is not modelled. Water is a real, and quarter-litre steps are exact in it.
- TitanLevels.CalculateXP: IEEE-754 floating point is replaced by exact reals with `Floor`.
- TitanLevels.ProgressToNextLevel: the percentage is an exact real, not a double.

=== FILE: coach.dfy ===
/** The rule-based coach (app/lib/ai-logic.ts): a five-way priority cascade over a
    small daily context that picks a message category and a suggested task. The
    source draws the message uniformly at random from the category's pool; here
    the drawn index is the parameter `pick`. */
module Coach {
  import opened Wrappers
  import Numbers

  datatype Energy = Low | Mid | High
  datatype SleepQuality = Bad | Ok | Good

  /** The minutes the user has today; the source's type admits exactly these. */
  type Minutes = t: int | t == 5 || t == 10 || t == 20 || t == 30 || t == 45 || t == 60 witness 30

  datatype DailyContext = DailyContext(
    energy: Energy,
    sleep: SleepQuality,
    timeAvailable: Minutes,
    yesterdayWorkout: bool,
    streak: int)

  datatype Category = Recovery | BeastMode | QuickHit | Comeback | OnFire

  datatype Response = Response(message: string, suggestion: string)

  const PoolSize := 5

  /** The message pool of each category. */
  function Pool(c: Category): (p: seq<string>)
    ensures |p| == PoolSize
  {
    match c
    case Recovery => [
      "Today isn't for pushing. Just move.",
      "You didn't fail. You paused. Light mobility today.",
      "Grind is strictly prohibited today. Focus on recovery.",
      "Sleep is the best pre-workout. Get some rest, Titan.",
      "Even Titans need to recharge. 5 mins of stretching, that's it."]
    case BeastMode => [
      "Energy is high? Destroy the limits.",
      "The iron is calling. Don't let it go to voicemail.",
      "Perfect conditions to hit a PR today.",
      "You're fully charged. Spend that energy wisely: Heavy Lifting.",
      "No excuses today. Only domination."]
    case QuickHit => [
      "15 minutes is enough to shock the muscles.",
      "Efficiency is key. HIIT session incoming.",
      "Don't skip. Just compress. 10 mins hard work.",
      "Something is infinitely better than nothing.",
      "Speed run mode: Activated."]
    case Comeback => [
      "Consistency beats intensity. Just show up.",
      "One day off is rest. Two days is a slippery slope. Get back.",
      "The comeback is always stronger than the setback.",
      "Don't break the chain twice.",
      "Dust yourself off. We go again."]
    case OnFire => [
      "You're becoming dangerous. Keep this up.",
      "Momentum is your superpower right now.",
      "This is how legends are forged. Another day, another win.",
      "You're lapping everyone on the couch.",
      "Stat boost: Discipline +10."]
  }

  /** The categories from highest to lowest priority. */
  const Priority: seq<Category> := [Recovery, QuickHit, Comeback, OnFire, BeastMode]

  /** The condition under which each category's rule fires, ignoring priority. */
  predicate Applies(c: Category, ctx: DailyContext) {
    match c
    case Recovery => ctx.sleep == Bad || ctx.energy == Low
    case QuickHit => ctx.timeAvailable <= 20
    case Comeback => !ctx.yesterdayWorkout
    case OnFire => ctx.streak > 5
    case BeastMode => true
  }

  /** The position of the first category of `cs` whose rule fires, or `|cs|`. */
  function FirstApplicable(cs: seq<Category>, ctx: DailyContext): (i: nat)
    ensures i <= |cs|
    ensures i < |cs| ==> Applies(cs[i], ctx)
    ensures forall j :: 0 <= j < i ==> !Applies(cs[j], ctx)
    decreases |cs|
  {
    if |cs| == 0 then 0
    else if Applies(cs[0], ctx) then 0
    else
      var i := FirstApplicable(cs[1..], ctx);
      assert forall j :: 1 <= j < i + 1 ==> cs[j] == cs[1..][j - 1];
      i + 1
  }

  /** The category the priority order selects: exactly one, and each only when
      every higher-priority rule is silent. */
  function Chosen(ctx: DailyContext): (c: Category)
    ensures c == Recovery <==> ctx.sleep == Bad || ctx.energy == Low
    ensures c == QuickHit <==> !Applies(Recovery, ctx) && ctx.timeAvailable <= 20
    ensures c == Comeback <==>
      !Applies(Recovery, ctx) && ctx.timeAvailable > 20 && !ctx.yesterdayWorkout
    ensures c == OnFire <==>
      !Applies(Recovery, ctx) && ctx.timeAvailable > 20 && ctx.yesterdayWorkout && ctx.streak > 5
    ensures c == BeastMode <==>
      !Applies(Recovery, ctx) && ctx.timeAvailable > 20 && ctx.yesterdayWorkout && ctx.streak <= 5
  {
    var i := FirstApplicable(Priority, ctx);
    assert Applies(Priority[4], ctx);
    Priority[i]
  }

  const HiitSuffix := " min HIIT Blast"

  /** The tasks the coach can suggest. */
  datatype Task = DecompressionBreathing | MobilityFlow | HiitBlast(minutes: int)
                | WakeUpCircuit | AttemptPR | HeavyCompoundLifts

  /** The text the source returns for each task. A HIIT blast's text is its
      minutes followed by " min HIIT Blast", and the leading digits read back as the
      minutes. */
  function TaskText(t: Task): (text: string)
    ensures t.HiitBlast? && t.minutes >= 0 ==>
      |text| > |HiitSuffix| && text[|text| - |HiitSuffix|..] == HiitSuffix
      && Numbers.AllDigits(text[..|text| - |HiitSuffix|])
      && Numbers.ParseNat(text[..|text| - |HiitSuffix|]) == t.minutes
    ensures t.HiitBlast? && t.minutes > 0 ==> text[0] != '0'
  {
    match t
    case DecompressionBreathing => "5 min Decompression Breathing"
    case MobilityFlow => "10 min Mobility Flow"
    case HiitBlast(m) => Numbers.IntToString(m) + HiitSuffix
    case WakeUpCircuit => "Full Body Wake-Up Circuit"
    case AttemptPR => "Attempt a PR (Safety First)"
    case HeavyCompoundLifts => "Heavy Compound Lifts"
  }

  /** The task each category calls for: recovery shortens to breathing when under
      ten minutes are available, and the quick hit names the available minutes. */
  function SuggestedTask(c: Category, ctx: DailyContext): (t: Task)
    ensures c == Recovery ==>
      (t == DecompressionBreathing <==> ctx.timeAvailable < 10)
      && (t == MobilityFlow <==> ctx.timeAvailable >= 10)
    ensures t.HiitBlast? <==> c == QuickHit
    ensures c == QuickHit ==> t.minutes == ctx.timeAvailable
    ensures c == Comeback ==> t == WakeUpCircuit
    ensures c == OnFire ==> t == AttemptPR
    ensures c == BeastMode ==> t == HeavyCompoundLifts
  {
    match c
    case Recovery => if ctx.timeAvailable < 10 then DecompressionBreathing else MobilityFlow
    case QuickHit => HiitBlast(ctx.timeAvailable)
    case Comeback => WakeUpCircuit
    case OnFire => AttemptPR
    case BeastMode => HeavyCompoundLifts
  }

  /** The coach's answer, following the source's nested conditions. The message is
      the drawn element of the pool of the one category the priority order
      selects (the suggestion is covered by `SuggestionFollowsPriority`). */
  function GetAIResponse(ctx: DailyContext, pick: nat): (r: Response)
    requires pick < PoolSize
    ensures r.message == Pool(Chosen(ctx))[pick]
  {
    if ctx.sleep == Bad || ctx.energy == Low then
      var task := if ctx.timeAvailable < 10 then DecompressionBreathing else MobilityFlow;
      Response(Pool(Recovery)[pick], TaskText(task))
    else if ctx.timeAvailable <= 20 then
      Response(Pool(QuickHit)[pick], TaskText(HiitBlast(ctx.timeAvailable)))
    else if !ctx.yesterdayWorkout then
      Response(Pool(Comeback)[pick], TaskText(WakeUpCircuit))
    else if ctx.streak > 5 then
      Response(Pool(OnFire)[pick], TaskText(AttemptPR))
    else
      Response(Pool(BeastMode)[pick], TaskText(HeavyCompoundLifts))
  }

  /** The suggestion is the text of the task of the one category the priority
      order selects. */
  lemma SuggestionFollowsPriority(ctx: DailyContext, pick: nat)
    requires pick < PoolSize
    ensures GetAIResponse(ctx, pick).suggestion == TaskText(SuggestedTask(Chosen(ctx), ctx))
  {
    if ctx.sleep == Bad || ctx.energy == Low {
      assert Chosen(ctx) == Recovery;
    } else if ctx.timeAvailable <= 20 {
      assert Chosen(ctx) == QuickHit;
    } else if !ctx.yesterdayWorkout {
      assert Chosen(ctx) == Comeback;
    } else if ctx.streak > 5 {
      assert Chosen(ctx) == OnFire;
    } else {
      assert Chosen(ctx) == BeastMode;
    }
  }

  /** Bad sleep outranks high energy, ample time, yesterday's workout and a long
      streak. */
  lemma SleepDominates(pick: nat)
    requires pick < PoolSize
    ensures var r := GetAIResponse(DailyContext(High, Bad, 60, true, 10), pick);
      r.message in Pool(Recovery) && r.suggestion == "10 min Mobility Flow"
  {
    SuggestionFollowsPriority(DailyContext(High, Bad, 60, true, 10), pick);
  }

  /** With good sleep, high energy and time, the streak rule fires before the default. */
  lemma StreakBeforeDefault(pick: nat)
    requires pick < PoolSize
    ensures var r := GetAIResponse(DailyContext(High, Good, 60, true, 10), pick);
      r.message in Pool(OnFire) && r.suggestion == "Attempt a PR (Safety First)"
  {
    SuggestionFollowsPriority(DailyContext(High, Good, 60, true, 10), pick);
  }

  /** Ten available minutes make a quick hit whose task names the minutes. */
  lemma QuickHitNamesMinutes(pick: nat)
    requires pick < PoolSize
    ensures var r := GetAIResponse(DailyContext(Mid, Ok, 10, true, 0), pick);
      r.message in Pool(QuickHit) && r.suggestion == "10 min HIIT Blast"
  {
    var ctx := DailyContext(Mid, Ok, 10, true, 0);
    assert Chosen(ctx) == QuickHit;
    assert SuggestedTask(QuickHit, ctx) == HiitBlast(10);
    SuggestionFollowsPriority(ctx, pick);
    TenMinuteBlastText();
    var r := GetAIResponse(ctx, pick);
    assert r.message == Pool(QuickHit)[pick];
    assert r.suggestion == TaskText(HiitBlast(10));
  }

  lemma TenMinuteBlastText()
    ensures TaskText(HiitBlast(10)) == "10 min HIIT Blast"
  {
    assert Numbers.DigitChar(1) == '1' && Numbers.DigitChar(0) == '0';
    assert Numbers.NatToString(1) == "1";
    assert Numbers.NatToString(10) == "10";
    assert Numbers.IntToString(10) == "10";
    assert "10" + HiitSuffix == "10 min HIIT Blast";
  }
}

=== FILE: dashboard.dfy ===
/** The dashboard's state updates (app/dashboard/dashboard-client.tsx), lifted out
    of React state setters into functions on one `Dashboard` record: the capped
    activity log, energy cycling, the coach context, the water button, the modal
    submit rules, the settings edits, the load/save round trip and the derived
    streak, achievements and XP. The clock is the `Clock` parameter, JavaScript's
    number-to-text conversion is the `numberText` parameter, and `parseFloat` /
    `parseInt` results arrive already parsed (`None` for NaN). */
module Dashboard {
  import opened Wrappers
  import opened Stats
  import opened Coach
  import Features
  import TitanLevels

  datatype ActivityKind = WorkoutActivity | NutritionActivity | SleepActivity | WaterActivity

  /** A log entry: id is the creation time in milliseconds, timestamp the
      "HH:MM" text of the creation time. */
  datatype Activity = Activity(id: int, name: string, timestamp: string, kind: ActivityKind)

  datatype Goals = Goals(calories: real, water: real, sleep: real, workouts: real)

  datatype Dashboard = Dashboard(
    weight: real,
    calories: real,
    water: real,
    sleep: real,
    workouts: int,
    activities: seq<Activity>,
    goals: Goals,
    userName: string,
    energy: Energy,
    timeAvailable: Minutes)

  /** `Date.now()` and the locale "HH:MM" text at the moment of an update. */
  datatype Clock = Clock(now: int, time: string)

  const MaxActivities := 5
  const WaterCap := 5.0
  const WaterStep := 0.25

  /** The state before anything is loaded: zero metrics, one "Platform Initiated"
      entry, the default goals, the provider's display name, mid energy and 30
      minutes available. */
  function InitialDashboard(providerName: string): (d: Dashboard)
    ensures |d.activities| == 1 && d.userName == providerName
  {
    Dashboard(0.0, 0.0, 0.0, 0.0, 0,
      [Activity(1, "Platform Initiated", "Just now", WorkoutActivity)],
      Goals(2500.0, 3.5, 8.0, 5.0), providerName, Mid, 30)
  }

  /** `addActivity`: the new entry first, then the previous entries, cut to the
      five newest. */
  function AddActivity(acts: seq<Activity>, a: Activity): (r: seq<Activity>)
    ensures |r| == if |acts| + 1 < MaxActivities then |acts| + 1 else MaxActivities
    ensures r[0] == a
    ensures forall i :: 1 <= i < |r| ==> r[i] == acts[i - 1]
  {
    var all := [a] + acts;
    if |all| <= MaxActivities then all else all[..MaxActivities]
  }

  /** The entry `addActivity` builds: the creation time as id, its "HH:MM" text as
      timestamp, and the given name and type. */
  function NewActivity(clock: Clock, name: string, kind: ActivityKind): (a: Activity)
    ensures a.id == clock.now && a.timestamp == clock.time
    ensures a.name == name && a.kind == kind
  {
    Activity(clock.now, name, clock.time, kind)
  }

  /** The dashboard with one entry logged. */
  function Log(d: Dashboard, clock: Clock, name: string, kind: ActivityKind): Dashboard {
    d.(activities := AddActivity(d.activities, NewActivity(clock, name, kind)))
  }

  /** `r` is `d` with exactly one entry of `kind` logged at `clock` and no other change. */
  predicate LoggedOnce(d: Dashboard, r: Dashboard, clock: Clock, kind: ActivityKind) {
    && |r.activities| > 0
    && r.activities[0].kind == kind && r.activities[0].id == clock.now
    && r.activities[0].timestamp == clock.time
    && r.activities == AddActivity(d.activities, r.activities[0])
  }

  /** The next energy level in the cycle low, mid, high, low. */
  function NextEnergy(e: Energy): (r: Energy)
    ensures r != e
  {
    match e
    case Low => Mid
    case Mid => High
    case High => Low
  }

  /** Three toggles return to the starting level. */
  lemma EnergyCycle(e: Energy)
    ensures NextEnergy(NextEnergy(NextEnergy(e))) == e
    ensures NextEnergy(NextEnergy(e)) != e
  {
  }

  /** The cycle is the source's: the level after position i of [low, mid, high] is
      the one at position (i + 1) mod 3. */
  lemma EnergyFollowsLevelOrder(i: nat)
    requires i < 3
    ensures NextEnergy([Low, Mid, High][i]) == [Low, Mid, High][(i + 1) % 3]
  {
  }

  /** The upper-cased level name shown in the log; each level has its own text. */
  function EnergyText(e: Energy): (t: string)
    ensures t == "LOW" <==> e == Low
    ensures t == "MID" <==> e == Mid
    ensures t == "HIGH" <==> e == High
  {
    match e
    case Low => "LOW"
    case Mid => "MID"
    case High => "HIGH"
  }

  /** `toggleEnergy`: advance the energy level and log it. */
  function ToggleEnergy(d: Dashboard, clock: Clock): (r: Dashboard)
    ensures r.energy == NextEnergy(d.energy)
    ensures LoggedOnce(d, r.(energy := d.energy), clock, WorkoutActivity)
    ensures r.activities[0].name == "Energy Level: " + EnergyText(r.energy)
    ensures r.(energy := d.energy, activities := d.activities) == d
  {
    var next := NextEnergy(d.energy);
    Log(d.(energy := next), clock, "Energy Level: " + EnergyText(next), WorkoutActivity)
  }

  /** Sleep hours to the coach's sleep quality: under 6 is bad, over 8 good. */
  function SleepQualityOf(hours: real): (q: SleepQuality)
    ensures q == Bad <==> hours < 6.0
    ensures q == Good <==> hours > 8.0
    ensures q == Ok <==> 6.0 <= hours <= 8.0
  {
    if hours < 6.0 then Bad else if hours > 8.0 then Good else Ok
  }

  /** `updateAI`'s context: the current energy and minutes, the sleep quality of
      the logged hours, "worked out yesterday" as "any workouts at all", and the
      workout count standing in for the streak. */
  function CoachContext(d: Dashboard): (c: DailyContext)
    ensures c.energy == d.energy && c.timeAvailable == d.timeAvailable
    ensures c.sleep == SleepQualityOf(d.sleep)
    ensures c.yesterdayWorkout <==> d.workouts > 0
    ensures c.streak == d.workouts
  {
    DailyContext(d.energy, SleepQualityOf(d.sleep), d.timeAvailable, d.workouts > 0, d.workouts)
  }

  /** Under six hours of sleep, or low energy, the dashboard's coach always
      prescribes recovery. */
  lemma PoorRestMeansRecovery(d: Dashboard, pick: nat)
    requires pick < PoolSize
    requires d.sleep < 6.0 || d.energy == Low
    ensures GetAIResponse(CoachContext(d), pick).message in Pool(Recovery)
  {
  }

  /** With enough rest and the default 30 minutes, a user with no recorded workouts
      gets the comeback message, and one with more than five gets the on-fire
      message (the workout count stands in for the streak). */
  lemma RestedCoach(d: Dashboard, pick: nat)
    requires pick < PoolSize
    requires d.sleep >= 6.0 && d.energy != Low && d.timeAvailable == 30
    ensures d.workouts <= 0 ==> GetAIResponse(CoachContext(d), pick).message in Pool(Comeback)
    ensures d.workouts > 5 ==> GetAIResponse(CoachContext(d), pick).message in Pool(OnFire)
  {
  }

  /** `handleAddWater`: a quarter litre more, capped at five litres, and one water
      entry logged. The water never exceeds the cap and never falls from at or below
      it; a loaded value above the cap drops to the cap. */
  function AddWater(d: Dashboard, clock: Clock): (r: Dashboard)
    ensures r.water <= WaterCap
    ensures d.water <= WaterCap - WaterStep ==> r.water == d.water + WaterStep
    ensures d.water <= WaterCap ==> r.water >= d.water
    ensures d.water >= WaterCap - WaterStep ==> r.water == WaterCap
    ensures LoggedOnce(d, r.(water := d.water), clock, WaterActivity)
    ensures r.activities[0].name == "Hydration +250ml"
    ensures r.(water := d.water, activities := d.activities) == d
  {
    var w := d.water + WaterStep;
    var capped := if w < WaterCap then w else WaterCap;
    Log(d.(water := capped), clock, "Hydration +250ml", WaterActivity)
  }

  datatype ModalType = NoModal | WeightModal | CaloriesModal | SleepModal | CheckinModal | SettingsModal

  /** `handleModalSubmit`. The settings form and an input that is not a number
      leave the dashboard unchanged, as does a modal type with no update rule; a
      weight or sleep value overwrites, calories accumulate, and each accepted
      update logs one entry. */
  function ModalSubmit(d: Dashboard, modal: ModalType, input: Option<real>, clock: Clock,
                       numberText: real -> string): (r: Dashboard)
    ensures modal == SettingsModal || input.None? ==> r == d
    ensures modal == NoModal || modal == CheckinModal ==> r == d
    ensures input.Some? && modal == WeightModal ==>
      r.weight == input.value && LoggedOnce(d, r.(weight := d.weight), clock, WorkoutActivity)
      && r.activities[0].name == "Weight Update: " + numberText(input.value) + "lbs"
      && r.(weight := d.weight, activities := d.activities) == d
    ensures input.Some? && modal == CaloriesModal ==>
      r.calories == d.calories + input.value && LoggedOnce(d, r.(calories := d.calories), clock, NutritionActivity)
      && r.activities[0].name == "Nutrition +" + numberText(input.value) + "kcal"
      && r.(calories := d.calories, activities := d.activities) == d
    ensures input.Some? && modal == SleepModal ==>
      r.sleep == input.value && LoggedOnce(d, r.(sleep := d.sleep), clock, SleepActivity)
      && r.activities[0].name == "Sleep Logged: " + numberText(input.value) + "hrs"
      && r.(sleep := d.sleep, activities := d.activities) == d
  {
    if modal == SettingsModal then d
    else if input.None? then d
    else
      var v := input.value;
      match modal
      case WeightModal =>
        Log(d.(weight := v), clock, "Weight Update: " + numberText(v) + "lbs", WorkoutActivity)
      case CaloriesModal =>
        Log(d.(calories := d.calories + v), clock, "Nutrition +" + numberText(v) + "kcal", NutritionActivity)
      case SleepModal =>
        Log(d.(sleep := v), clock, "Sleep Logged: " + numberText(v) + "hrs", SleepActivity)
      case _ => d
  }

  /** Calorie entries add up while weight entries replace one another. */
  lemma CaloriesAccumulateWeightOverwrites(d: Dashboard, a: real, b: real, c1: Clock, c2: Clock,
                                           numberText: real -> string)
    ensures ModalSubmit(ModalSubmit(d, CaloriesModal, Some(a), c1, numberText),
                        CaloriesModal, Some(b), c2, numberText).calories == d.calories + a + b
    ensures ModalSubmit(ModalSubmit(d, WeightModal, Some(a), c1, numberText),
                        WeightModal, Some(b), c2, numberText).weight == b
  {
  }

  /** The settings form's live edits: the display name verbatim, the goals from
      `parseInt`/`parseFloat` with NaN and 0 both read as 0. */
  datatype SettingsEdit =
    | NameEdit(text: string)
    | CalorieGoalEdit(parsedInt: Option<int>)
    | WaterGoalEdit(parsedReal: Option<real>)
    | WorkoutGoalEdit(parsedInt: Option<int>)

  function ApplySettingsEdit(d: Dashboard, e: SettingsEdit): (r: Dashboard)
    ensures e.NameEdit? ==> r == d.(userName := e.text)
    ensures e.CalorieGoalEdit? ==> r.goals.calories == e.parsedInt.GetOr(0) as real
    ensures e.WaterGoalEdit? ==> r.goals.water == e.parsedReal.GetOr(0.0)
    ensures e.WorkoutGoalEdit? ==> r.goals.workouts == e.parsedInt.GetOr(0) as real
    ensures !e.NameEdit? ==> r.(goals := d.goals) == d && r.goals.sleep == d.goals.sleep
    ensures !e.CalorieGoalEdit? ==> r.goals.calories == d.goals.calories
    ensures !e.WaterGoalEdit? ==> r.goals.water == d.goals.water
    ensures !e.WorkoutGoalEdit? ==> r.goals.workouts == d.goals.workouts
  {
    match e
    case NameEdit(t) => d.(userName := t)
    case CalorieGoalEdit(p) => d.(goals := d.goals.(calories := p.GetOr(0) as real))
    case WaterGoalEdit(p) => d.(goals := d.goals.(water := p.GetOr(0.0)))
    case WorkoutGoalEdit(p) => d.(goals := d.goals.(workouts := p.GetOr(0) as real))
  }

  /** The user's actions on the dashboard. Saving the settings and exporting the
      data each log one entry (the download itself is not modelled). */
  datatype Action =
    | AddWaterAction
    | ToggleEnergyAction
    | SubmitAction(modal: ModalType, input: Option<real>)
    | EditAction(edit: SettingsEdit)
    | SaveSettingsAction
    | ExportAction

  function Apply(d: Dashboard, a: Action, clock: Clock, numberText: real -> string): (r: Dashboard)
    ensures a.AddWaterAction? ==> r == AddWater(d, clock)
    ensures a.ToggleEnergyAction? ==> r == ToggleEnergy(d, clock)
    ensures a.SubmitAction? ==> r == ModalSubmit(d, a.modal, a.input, clock, numberText)
    ensures a.EditAction? ==> r == ApplySettingsEdit(d, a.edit)
    ensures a.SaveSettingsAction? || a.ExportAction? ==>
      LoggedOnce(d, r, clock, WorkoutActivity) && r.(activities := d.activities) == d
    ensures a.SaveSettingsAction? ==> r.activities[0].name == "System Protocols Updated"
    ensures a.ExportAction? ==> r.activities[0].name == "Data Exported"
  {
    match a
    case AddWaterAction => AddWater(d, clock)
    case ToggleEnergyAction => ToggleEnergy(d, clock)
    case SubmitAction(m, v) => ModalSubmit(d, m, v, clock, numberText)
    case EditAction(e) => ApplySettingsEdit(d, e)
    case SaveSettingsAction => Log(d, clock, "System Protocols Updated", WorkoutActivity)
    case ExportAction => Log(d, clock, "Data Exported", WorkoutActivity)
  }

  /** The log holds at most five entries (true from the initial state on). */
  predicate Capped(d: Dashboard) {
    |d.activities| <= MaxActivities
  }

  /** No dashboard action changes the workout count, the minutes available or
      pushes the log past five entries. */
  lemma ApplyKeepsCapAndWorkouts(d: Dashboard, a: Action, clock: Clock, numberText: real -> string)
    ensures Capped(d) ==> Capped(Apply(d, a, clock, numberText))
    ensures Apply(d, a, clock, numberText).workouts == d.workouts
    ensures Apply(d, a, clock, numberText).timeAvailable == d.timeAvailable
  {
  }

  /** The persisted record: each field may be missing from the stored JSON. The
      energy level and minutes available are not persisted. */
  datatype Stored = Stored(
    weight: Option<real>,
    calories: Option<real>,
    water: Option<real>,
    sleep: Option<real>,
    workouts: Option<int>,
    activities: Option<seq<Activity>>,
    goals: Option<Goals>,
    userName: Option<string>)

  /** The save effect: the full snapshot of the persisted fields. */
  function Save(d: Dashboard): (st: Stored)
    ensures st.weight.Some? && st.calories.Some? && st.water.Some? && st.sleep.Some?
    ensures st.workouts.Some? && st.activities.Some? && st.goals.Some? && st.userName.Some?
  {
    Stored(Some(d.weight), Some(d.calories), Some(d.water), Some(d.sleep), Some(d.workouts),
           Some(d.activities), Some(d.goals), Some(d.userName))
  }

  /** The mount effect: no stored record leaves the initial state; otherwise each
      missing number reads as 0 (`x || 0`), and the log, goals and name replace the
      defaults only when present (an empty name is falsy and keeps the provider's). */
  function Load(stored: Option<Stored>, providerName: string): (d: Dashboard)
    ensures stored.None? ==> d == InitialDashboard(providerName)
    ensures stored.Some? ==>
      && d.weight == stored.value.weight.GetOr(0.0)
      && d.calories == stored.value.calories.GetOr(0.0)
      && d.water == stored.value.water.GetOr(0.0)
      && d.sleep == stored.value.sleep.GetOr(0.0)
      && d.workouts == stored.value.workouts.GetOr(0)
    ensures stored.Some? && stored.value.activities.None? ==>
      d.activities == InitialDashboard(providerName).activities
    ensures stored.Some? && stored.value.goals.None? ==> d.goals == InitialDashboard(providerName).goals
    ensures stored.Some? && stored.value.activities.Some? ==> d.activities == stored.value.activities.value
    ensures stored.Some? && stored.value.goals.Some? ==> d.goals == stored.value.goals.value
    ensures stored.Some? && stored.value.userName.GetOr("") == "" ==> d.userName == providerName
    ensures stored.Some? && stored.value.userName.GetOr("") != "" ==> d.userName == stored.value.userName.value
    ensures d.energy == Mid && d.timeAvailable == 30
  {
    var init := InitialDashboard(providerName);
    match stored
    case None => init
    case Some(st) =>
      var name := st.userName.GetOr("");
      init.(weight := st.weight.GetOr(0.0),
            calories := st.calories.GetOr(0.0),
            water := st.water.GetOr(0.0),
            sleep := st.sleep.GetOr(0.0),
            workouts := st.workouts.GetOr(0),
            activities := st.activities.GetOr(init.activities),
            goals := st.goals.GetOr(init.goals),
            userName := if name != "" then name else providerName)
  }

  /** Saving and loading reproduces every persisted field, except that an empty
      display name comes back as the provider's name; energy and minutes return to
      their defaults because they are not saved. */
  lemma SaveLoadRoundTrip(d: Dashboard, providerName: string)
    ensures Load(Some(Save(d)), providerName)
      == d.(userName := if d.userName == "" then providerName else d.userName,
            energy := Mid, timeAvailable := 30)
  {
  }

  /** The metrics in the shape the XP formula and the achievements read. */
  function StatsOf(d: Dashboard, streak: int): (s: Stats)
    ensures s.workouts == d.workouts && s.streak == streak
    ensures s.weight == d.weight && s.calories == d.calories && s.water == d.water && s.sleep == d.sleep
  {
    Stats(d.workouts, d.weight, d.calories, d.water, d.sleep, streak)
  }

  datatype Derived = Derived(
    streak: nat,
    achievements: seq<Features.Achievement>,
    xp: int,
    level: TitanLevels.Level)

  /** The derived-stats effect: one streak from the current log feeds both the
      achievements and the XP, and the level is the one that XP reaches. */
  function Derive(d: Dashboard, dayKey: Activity -> string): (r: Derived)
    ensures r.streak == |Features.DaysOf(d.activities, dayKey)| && r.streak <= |d.activities|
    ensures r.achievements == Features.CheckAchievements(StatsOf(d, r.streak))
    ensures |r.achievements| == Features.AchievementCount
    ensures r.achievements[5].unlocked <==> r.streak >= 3
    ensures r.achievements[6].unlocked <==> r.streak >= 7
    ensures r.xp == TitanLevels.CalculateXP(StatsOf(d, 0)) + 30 * r.streak
    ensures r.level == TitanLevels.CurrentLevel(r.xp)
    ensures r.level.xpRequired <= r.xp || r.xp < 0
  {
    var streak := Features.CalculateStreak(d.activities, dayKey);
    var stats := StatsOf(d, streak);
    StreakXP(d, streak);
    var xp := TitanLevels.CalculateXP(stats);
    var level := TitanLevels.CurrentLevel(xp);
    Derived(streak, Features.CheckAchievements(stats), xp, level)
  }

  /** The streak contributes 30 XP per day on top of the other metrics. */
  lemma StreakXP(d: Dashboard, streak: int)
    ensures TitanLevels.CalculateXP(StatsOf(d, streak)) == TitanLevels.CalculateXP(StatsOf(d, 0)) + 30 * streak
  {
  }

  /** With the log capped at five entries the streak is at most five, so the
      seven-day achievement never unlocks and the streak adds at most 150 XP. */
  lemma CappedLogLimitsStreak(d: Dashboard, dayKey: Activity -> string)
    requires Capped(d)
    ensures Derive(d, dayKey).streak <= MaxActivities
    ensures !Derive(d, dayKey).achievements[6].unlocked
    ensures Derive(d, dayKey).xp <= TitanLevels.CalculateXP(StatsOf(d, 0)) + 150
  {
  }

  /** The calories form accepts a negative number and adds it, so a large negative
      entry on a fresh dashboard drives the XP below zero, and the level card's
      progress percentage with it. */
  lemma NegativeCaloriesNegativeProgress(providerName: string, clock: Clock,
                                         numberText: real -> string, dayKey: Activity -> string)
    ensures var d := ModalSubmit(InitialDashboard(providerName), CaloriesModal, Some(-10000.0), clock, numberText);
      var xp := Derive(d, dayKey).xp;
      xp < 0 && TitanLevels.ProgressToNextLevel(xp).percentage < 0.0
  {
    var d := ModalSubmit(InitialDashboard(providerName), CaloriesModal, Some(-10000.0), clock, numberText);
    assert d.calories == -10000.0 && |d.activities| == 2;
    assert TitanLevels.CalculateXP(StatsOf(d, 0)) == -100;
  }

  /** Log timestamps are clock texts ("HH:MM", "Just now") that do not parse as
      dates, so every entry falls on the same day key. A non-empty log then has
      streak 1, and the three-day achievement stays locked as well. */
  lemma TimeOnlyStampsGiveOneDay(d: Dashboard, day: string)
    requires |d.activities| > 0
    ensures Derive(d, (a: Activity) => day).streak == 1
    ensures !Derive(d, (a: Activity) => day).achievements[5].unlocked
  {
    Features.OneDayStreak(d.activities, (a: Activity) => day, day);
  }
}

=== FILE: features.dfy ===
/** Streak, achievements, greeting and daily quote (app/lib/features.ts). The
    clock is not read here: the greeting takes the hour, the quote takes the day
    of the year, and the streak takes the function that maps an activity to its
    calendar-day key (the source's `new Date(a.timestamp || Date.now()).toDateString()`). */
module Features {
  import opened Wrappers
  import opened Stats
  import Numbers

  /** Greeting for the local hour: morning before noon, afternoon before six,
      evening after. */
  function Greeting(hour: int): (g: string)
    ensures g == "Good Morning" <==> hour < 12
    ensures g == "Good Afternoon" <==> 12 <= hour < 18
    ensures g == "Good Evening" <==> hour >= 18
  {
    if hour < 12 then "Good Morning"
    else if hour < 18 then "Good Afternoon"
    else "Good Evening"
  }

  /** The set of day keys among the activities. */
  function DaysOf<A>(acts: seq<A>, dayKey: A -> string): (days: set<string>)
    ensures forall i :: 0 <= i < |acts| ==> dayKey(acts[i]) in days
    ensures forall d :: d in days ==> exists i :: 0 <= i < |acts| && dayKey(acts[i]) == d
    ensures |days| <= |acts|
    decreases |acts|
  {
    if |acts| == 0 then {}
    else
      var rest := DaysOf(acts[1..], dayKey);
      assert forall i :: 1 <= i < |acts| ==> acts[i] == acts[1..][i - 1];
      {dayKey(acts[0])} + rest
  }

  /** The "streak": the number of distinct days with at least one activity, not a
      run of consecutive days. The source also computes whether any activity falls
      today and never uses the answer, so today's date has no influence. */
  function CalculateStreak<A>(acts: seq<A>, dayKey: A -> string): (n: nat)
    ensures n == 0 <==> |acts| == 0
    ensures n <= |acts|
    ensures n == |DaysOf(acts, dayKey)|
  {
    if |acts| == 0 then 0
    else
      assert dayKey(acts[0]) in DaysOf(acts, dayKey);
      |DaysOf(acts, dayKey)|
  }

  /** A new entry on a day already present leaves the streak alone; one on a new
      day adds one. */
  lemma {:induction false} StreakCons<A>(a: A, acts: seq<A>, dayKey: A -> string)
    ensures (exists i :: 0 <= i < |acts| && dayKey(acts[i]) == dayKey(a)) ==>
      CalculateStreak([a] + acts, dayKey) == CalculateStreak(acts, dayKey)
    ensures (forall i :: 0 <= i < |acts| ==> dayKey(acts[i]) != dayKey(a)) ==>
      CalculateStreak([a] + acts, dayKey) == CalculateStreak(acts, dayKey) + 1
  {
    var xs := [a] + acts;
    assert xs[1..] == acts;
    var days := DaysOf(acts, dayKey);
    assert DaysOf(xs, dayKey) == {dayKey(a)} + days;
    if exists i :: 0 <= i < |acts| && dayKey(acts[i]) == dayKey(a) {
      var i :| 0 <= i < |acts| && dayKey(acts[i]) == dayKey(a);
      assert {dayKey(a)} + days == days;
    }
  }

  /** Entries that all fall on one day make a streak of one. */
  lemma {:induction false} OneDayStreak<A>(acts: seq<A>, dayKey: A -> string, day: string)
    requires |acts| > 0
    requires forall i :: 0 <= i < |acts| ==> dayKey(acts[i]) == day
    ensures CalculateStreak(acts, dayKey) == 1
  {
    var days := DaysOf(acts, dayKey);
    assert days == {day} by {
      assert day in days by {
        assert dayKey(acts[0]) == day;
      }
    }
  }

  datatype Achievement = Achievement(id: string, title: string, description: string, icon: string, unlocked: bool)

  const AchievementCount := 8

  /** The catalogue's fixed ids, in order. */
  const AchievementIds: seq<string> := [
    "first_workout", "week_warrior", "hydration_hero", "calorie_champion",
    "sleep_master", "streak_3", "streak_7", "titan_status"]

  /** The full catalogue, always all eight entries in the fixed order, each
      `unlocked` flag recomputed from its threshold. */
  function CheckAchievements(s: Stats): (r: seq<Achievement>)
    ensures |r| == AchievementCount
    ensures forall i :: 0 <= i < |r| ==> r[i].id == AchievementIds[i]
    ensures r[0].unlocked <==> s.workouts >= 1
    ensures r[1].unlocked <==> s.workouts >= 5
    ensures r[2].unlocked <==> s.water >= 3.0
    ensures r[3].unlocked <==> s.calories >= 2500.0
    ensures r[4].unlocked <==> s.sleep >= 8.0
    ensures r[5].unlocked <==> s.streak >= 3
    ensures r[6].unlocked <==> s.streak >= 7
    ensures r[7].unlocked <==> s.workouts >= 20
  {
    [ Achievement("first_workout", "First Steps", "Complete your first workout",
                  "\U{1F3AF}", s.workouts >= 1),
      Achievement("week_warrior", "Week Warrior", "Complete 5 workouts in a week",
                  "\U{1F4AA}", s.workouts >= 5),
      Achievement("hydration_hero", "Hydration Hero", "Reach 3L of water in a day",
                  "\U{1F4A7}", s.water >= 3.0),
      Achievement("calorie_champion", "Calorie Champion", "Log 2500+ calories",
                  "\U{1F525}", s.calories >= 2500.0),
      Achievement("sleep_master", "Sleep Master", "Log 8+ hours of sleep",
                  "\U{1F634}", s.sleep >= 8.0),
      Achievement("streak_3", "3-Day Streak", "Maintain a 3-day activity streak",
                  "\U{26A1}", s.streak >= 3),
      Achievement("streak_7", "Week Dominator", "Achieve a 7-day streak",
                  "\U{1F3C6}", s.streak >= 7),
      Achievement("titan_status", "Titan Status", "Complete 20 total workouts",
                  "\U{1F451}", s.workouts >= 20) ]
  }

  /** The harder achievements imply the easier ones on the same quantity. */
  lemma AchievementImplications(s: Stats)
    ensures var r := CheckAchievements(s);
      && (r[7].unlocked ==> r[1].unlocked)
      && (r[1].unlocked ==> r[0].unlocked)
      && (r[6].unlocked ==> r[5].unlocked)
  {
  }

  /** Larger quantities never lock an achievement that smaller ones unlock. */
  lemma AchievementsMonotone(a: Stats, b: Stats)
    requires AtMost(a, b)
    ensures forall i :: 0 <= i < AchievementCount ==>
      CheckAchievements(a)[i].unlocked ==> CheckAchievements(b)[i].unlocked
  {
  }

  /** The water threshold sits exactly at 3 litres. */
  lemma HydrationBoundary(s: Stats)
    ensures !CheckAchievements(s.(water := 2.999))[2].unlocked
    ensures CheckAchievements(s.(water := 3.0))[2].unlocked
  {
  }

  const Quotes: seq<string> := [
    "The only bad workout is the one that didn't happen.",
    "Your body can stand almost anything. It's your mind you have to convince.",
    "Success is the sum of small efforts repeated day in and day out.",
    "The pain you feel today will be the strength you feel tomorrow.",
    "Don't stop when you're tired. Stop when you're done.",
    "Champions are made when no one is watching.",
    "The difference between try and triumph is a little umph.",
    "Discipline is doing what needs to be done, even if you don't want to.",
    "Your only limit is you.",
    "Sweat is just fat crying."]

  /** The quote of the day: the list indexed by the day of the year modulo its
      length, with JavaScript's truncating remainder. A negative day gives a
      negative index, which reads `undefined` unless the remainder is zero. */
  function DailyQuote(dayOfYear: int): (q: Option<string>)
    ensures dayOfYear >= 0 ==> q == Some(Quotes[dayOfYear % |Quotes|])
    ensures dayOfYear < 0 ==> (q.None? <==> dayOfYear % |Quotes| != 0)
    ensures dayOfYear < 0 && dayOfYear % |Quotes| == 0 ==> q == Some(Quotes[0])
  {
    var i := Numbers.JsRem(dayOfYear, |Quotes|);
    if 0 <= i < |Quotes| then Some(Quotes[i]) else None
  }

  /** The quote repeats every ten days. */
  lemma DailyQuotePeriodic(dayOfYear: int)
    requires dayOfYear >= 0
    ensures DailyQuote(dayOfYear + |Quotes|) == DailyQuote(dayOfYear)
  {
  }
}

=== FILE: levels.dfy ===
/** The Titan level progression: a fixed ten-row table, the XP formula over the
    tracked quantities, and the lookups that place an XP total in the table
    (app/lib/titan-levels.ts). */
module TitanLevels {
  import opened Wrappers
  import opened Stats

  datatype Level = Level(level: int, title: string, xpRequired: int, rewards: seq<string>, color: string)

  /** Result of the progress computation: XP earned inside the current level, the
      XP span of that level, and the filled percentage of the progress bar. */
  datatype Progress = Progress(current: int, required: int, percentage: real)

  /** The level table: level i+1 sits at index i, the first level needs no XP and
      the thresholds strictly increase. */
  function Table(): (t: seq<Level>)
    ensures |t| == 10
    ensures forall i :: 0 <= i < |t| ==> t[i].level == i + 1
    ensures t[0].xpRequired == 0
    ensures forall i, j :: 0 <= i < j < |t| ==> t[i].xpRequired < t[j].xpRequired
  {
    [ Level(1, "Novice", 0, ["Dashboard Access"], "#808080"),
      Level(2, "Apprentice", 100, ["Basic Trackers"], "#a0a0a0"),
      Level(3, "Warrior", 250, ["AI Coach Unlocked"], "#00a8ff"),
      Level(4, "Guardian", 500, ["Advanced Stats"], "#00d9ff"),
      Level(5, "Champion", 1000, ["Premium Workouts"], "#00f0ff"),
      Level(6, "Elite", 2000, ["Custom Meal Plans"], "#ff9d00"),
      Level(7, "Master", 4000, ["Progress Analytics"], "#ffd700"),
      Level(8, "Legend", 7000, ["Exclusive Badges"], "#ff6400"),
      Level(9, "Titan", 12000, ["Titan Status"], "#7000ff"),
      Level(10, "God Mode", 20000, ["Ultimate Power"], "#ff00ff") ]
  }

  const MaxLevel := 10

  /** The XP total: 50 per workout, 1 per 100 calories, 10 per litre of water,
      20 per hour of sleep (each fractional part floored), 30 per streak day, and
      5 when a weight is recorded. The sum of the floors lies within 3 below the
      exact weighted sum. */
  function CalculateXP(s: Stats): (xp: int)
    ensures (xp as real) <= ExactXP(s) + (if s.weight > 0.0 then 5.0 else 0.0)
    ensures (xp as real) > ExactXP(s) + (if s.weight > 0.0 then 5.0 else 0.0) - 3.0
    ensures NonNegative(s) ==> xp >= 50 * s.workouts + 30 * s.streak
  {
    var xp := s.workouts * 50
      + (s.calories / 100.0).Floor
      + (s.water * 10.0).Floor
      + (s.sleep * 20.0).Floor
      + s.streak * 30;
    if s.weight > 0.0 then xp + 5 else xp
  }

  /** The weighted sum before flooring and without the weight bonus. */
  function ExactXP(s: Stats): real {
    (s.workouts * 50) as real + s.calories / 100.0 + s.water * 10.0 + s.sleep * 20.0 + (s.streak * 30) as real
  }

  /** More of any quantity, the others fixed or also larger, never lowers the XP. */
  lemma XPMonotone(a: Stats, b: Stats)
    requires AtMost(a, b)
    ensures CalculateXP(a) <= CalculateXP(b)
  {
    FloorMonotone(a.calories / 100.0, b.calories / 100.0);
    FloorMonotone(a.water * 10.0, b.water * 10.0);
    FloorMonotone(a.sleep * 20.0, b.sleep * 20.0);
  }

  lemma FloorMonotone(x: real, y: real)
    requires x <= y
    ensures x.Floor <= y.Floor
  {
  }

  /** The source's downward scan over the table, from index `i` toward 0: the
      first index whose threshold the XP reaches, or 0 when none does. */
  function ScanDown(xp: int, i: nat): (k: nat)
    requires i < |Table()|
    ensures k <= i
    ensures k > 0 ==> Table()[k].xpRequired <= xp
    ensures forall j :: k < j <= i ==> Table()[j].xpRequired > xp
    decreases i
  {
    if xp >= Table()[i].xpRequired then i
    else if i == 0 then 0
    else ScanDown(xp, i - 1)
  }

  /** The level an XP total has reached: the highest level whose threshold is at
      most `xp`; below every threshold (negative XP) it is level 1. */
  function CurrentLevel(xp: int): (r: Level)
    ensures 1 <= r.level <= MaxLevel && r == Table()[r.level - 1]
    ensures xp >= 0 ==> r.xpRequired <= xp
    ensures r.level < MaxLevel ==> Table()[r.level].xpRequired > xp
    ensures xp < 0 ==> r.level == 1
  {
    Table()[ScanDown(xp, |Table()| - 1)]
  }

  /** Independent description of the level an XP total reaches. */
  predicate Reaches(xp: int, k: int) {
    0 <= k < |Table()|
    && (k == 0 || Table()[k].xpRequired <= xp)
    && (k + 1 < |Table()| ==> Table()[k + 1].xpRequired > xp)
  }

  /** `CurrentLevel` picks exactly the table row that `Reaches` describes. */
  lemma CurrentLevelIsReached(xp: int, k: int)
    requires 0 <= k < |Table()|
    ensures CurrentLevel(xp) == Table()[k] <==> Reaches(xp, k)
  {
  }

  /** More XP never means a lower level. */
  lemma CurrentLevelMonotone(xp1: int, xp2: int)
    requires xp1 <= xp2
    ensures CurrentLevel(xp1).level <= CurrentLevel(xp2).level
  {
  }

  /** The boundaries of the top two levels, and the floor at level 1. */
  lemma CurrentLevelExamples()
    ensures CurrentLevel(0).level == 1
    ensures CurrentLevel(99).level == 1 && CurrentLevel(100).level == 2
    ensures CurrentLevel(19999).level == 9
    ensures CurrentLevel(20000).level == 10
  {
    CurrentLevelIsReached(0, 0);
    CurrentLevelIsReached(99, 0);
    CurrentLevelIsReached(100, 1);
    CurrentLevelIsReached(19999, 8);
    CurrentLevelIsReached(20000, 9);
  }

  /** The row after level `n`: indexing the table at `n` (one-indexed levels), absent
      from the top level on. A negative index reads `undefined` in the source. */
  function NextLevel(n: int): (r: Option<Level>)
    ensures 0 <= n < MaxLevel ==> r == Some(Table()[n]) && r.value.level == n + 1
    ensures 1 <= n < MaxLevel ==> r.value.xpRequired > Table()[n - 1].xpRequired
    ensures n >= MaxLevel || n < 0 ==> r.None?
  {
    if n >= |Table()| then None
    else if n < 0 then None
    else Some(Table()[n])
  }

  /** Progress inside the current level. At the top level the span is the XP itself
      and the bar is full, with no division; below it the span is positive, so the
      division is defined: for non-negative XP the percentage lies in [0, 100), and
      negative XP (level 1) gives a negative percentage. In both cases it is exactly
      current / span * 100, so the cap at 100 never applies. */
  function ProgressToNextLevel(xp: int): (p: Progress)
    ensures CurrentLevel(xp).level == MaxLevel ==> p == Progress(xp, xp, 100.0)
    ensures CurrentLevel(xp).level < MaxLevel ==>
      && p.required > 0
      && p.current == xp - CurrentLevel(xp).xpRequired
      && p.required == Table()[CurrentLevel(xp).level].xpRequired - CurrentLevel(xp).xpRequired
    ensures CurrentLevel(xp).level < MaxLevel && xp >= 0 ==>
      0 <= p.current < p.required && 0.0 <= p.percentage < 100.0
      && p.percentage == p.current as real / p.required as real * 100.0
    ensures CurrentLevel(xp).level < MaxLevel && xp < 0 ==>
      p.percentage == p.current as real / p.required as real * 100.0 && p.percentage < 0.0
    ensures p.percentage <= 100.0
  {
    var cur := CurrentLevel(xp);
    match NextLevel(cur.level)
    case None => Progress(xp, xp, 100.0)
    case Some(next) =>
      var inLevel := xp - cur.xpRequired;
      var needed := next.xpRequired - cur.xpRequired;
      var ratio := Percent(inLevel, needed);
      Progress(inLevel, needed, if ratio < 100.0 then ratio else 100.0)
  }

  /** `part / whole * 100` as a real; a share of a positive whole lies in [0, 100). */
  function Percent(part: int, whole: int): (pct: real)
    requires whole > 0
    ensures 0 <= part < whole ==> 0.0 <= pct < 100.0
    ensures part < 0 ==> pct < 0.0
  {
    ShareBelowOne(part as real, whole as real);
    (part as real / whole as real) * 100.0
  }

  lemma MulLe(x: real, y: real, w: real)
    requires x <= y && w >= 0.0
    ensures x * w <= y * w
  {
    assert (y - x) * w >= 0.0;
  }

  lemma ShareBelowOne(a: real, b: real)
    requires b > 0.0
    ensures 0.0 <= a < b ==> 0.0 <= a / b < 1.0
  {
    if a < 0.0 || a >= b {
      return;
    }
    var q := a / b;
    assert q * b == a;
    if q >= 1.0 {
      MulLe(1.0, q, b);
      assert false;
    }
    if q < 0.0 {
      MulLe(q, 0.0, b);
      assert false;
    }
  }
}

=== FILE: numbers.dfy ===
/** Number helpers with JavaScript semantics: the truncating `%` operator and the
    decimal text that a template literal `${n}` produces for an integer. */
module Numbers {

  predicate IsDigit(c: char) {
    '0' <= c <= '9'
  }

  predicate AllDigits(s: string) {
    forall i :: 0 <= i < |s| ==> IsDigit(s[i])
  }

  function DigitChar(d: nat): (c: char)
    requires d < 10
    ensures IsDigit(c)
    ensures c as int - '0' as int == d
  {
    ('0' as int + d) as char
  }

  function DigitValue(c: char): (d: nat)
    requires IsDigit(c)
    ensures d < 10
    ensures DigitChar(d) == c
  {
    c as int - '0' as int
  }

  /** JavaScript's `a % b` for a positive divisor: the remainder takes the sign of
      the dividend (truncation toward zero), unlike Dafny's Euclidean `%`. */
  function JsRem(a: int, b: int): (r: int)
    requires b > 0
    ensures a >= 0 ==> r == a % b
    ensures a < 0 ==> -b < r <= 0
    ensures a != 0 && r != 0 ==> (r < 0 <==> a < 0)
  {
    if a >= 0 then a % b else -((-a) % b)
  }

  /** Truncation makes the remainder an odd function of the dividend. */
  lemma JsRemOdd(a: int, b: int)
    requires b > 0
    ensures JsRem(-a, b) == -JsRem(a, b)
  {
  }

  /** Decimal text of a natural number, most significant digit first, no leading zero. */
  function NatToString(n: nat): (s: string)
    ensures |s| >= 1 && AllDigits(s)
    ensures s[0] == '0' ==> n == 0
    ensures |s| == 1 <==> n < 10
    ensures n < 100 ==> |s| <= 2
    decreases n
  {
    if n < 10 then [DigitChar(n)] else NatToString(n / 10) + [DigitChar(n % 10)]
  }

  /** Decimal text of an integer (`${i}`), with a leading minus sign for negatives;
      the digits read back as the magnitude. */
  function IntToString(i: int): (s: string)
    ensures |s| >= 1
    ensures i >= 0 ==> AllDigits(s) && ParseNat(s) == i && (s[0] == '0' ==> s == "0")
    ensures i < 0 ==> |s| >= 2 && s[0] == '-' && s[1] != '0' && AllDigits(s[1..]) && ParseNat(s[1..]) == -i
  {
    if i >= 0 then
      ParseNatToString(i);
      NatToString(i)
    else
      ParseNatToString(-i);
      assert ("-" + NatToString(-i))[1..] == NatToString(-i);
      "-" + NatToString(-i)
  }

  /** The value of a string of decimal digits (the empty string reads as 0). */
  function ParseNat(s: string): nat
    requires AllDigits(s)
    decreases |s|
  {
    if |s| == 0 then 0 else ParseNat(s[..|s| - 1]) * 10 + DigitValue(s[|s| - 1])
  }

  /** Reading back the text of a number gives the number. */
  lemma {:induction false} ParseNatToString(n: nat)
    ensures ParseNat(NatToString(n)) == n
    decreases n
  {
    var s := NatToString(n);
    if n >= 10 {
      ParseNatToString(n / 10);
      assert s[..|s| - 1] == NatToString(n / 10);
    }
  }
}

=== FILE: plan.dfy ===
/** The static guided-workout plan (app/workout/data.ts): three warm-ups, three
    exercises and two cool-downs, read-only for the session. */
module WorkoutPlan {
  import opened Wrappers

  datatype StepKind = Warmup | Exercise | Cooldown
  datatype Animation = Stretch | Push | Pull | Legs | Cardio

  /** One step. Optional fields of the source (`duration`, `reps`, `sets`, `rest`)
      are `Option`s; durations and rests are in seconds. */
  datatype Step = Step(
    id: string,
    title: string,
    kind: StepKind,
    duration: Option<int>,
    reps: Option<string>,
    sets: Option<int>,
    rest: Option<int>,
    cues: seq<string>,
    animation: Animation)

  /** A step runs a countdown exactly when it has a duration, whatever its kind
      (the source's `isTimeBased || isTimeBasedExercise`). */
  predicate TimeBased(s: Step) {
    s.duration.Some?
  }

  /** JavaScript truthiness of an optional number: present and non-zero. */
  predicate Truthy(o: Option<int>) {
    o.Some? && o.value != 0
  }

  /** `currentStep.sets && currentSet < currentStep.sets`: another set follows. */
  predicate SetsRemain(s: Step, currentSet: int) {
    Truthy(s.sets) && currentSet < s.sets.value
  }

  /** The largest set number a step can reach: its set count, and 1 when it has
      none (or a count below 1). */
  function SetLimit(s: Step): (n: int)
    ensures n >= 1
    ensures forall k :: 1 <= k < n ==> SetsRemain(s, k)
    ensures !SetsRemain(s, n)
  {
    if s.sets.Some? && s.sets.value > 1 then s.sets.value else 1
  }

  /** `currentStep.duration || 60`: the countdown of a timed set. */
  function DurationOrDefault(s: Step): (t: int)
    ensures Truthy(s.duration) ==> t == s.duration.value
    ensures !Truthy(s.duration) ==> t == 60
  {
    if Truthy(s.duration) then s.duration.value else 60
  }

  /** `currentStep.rest || 30`: the rest between sets of one step. */
  function RestOrDefault(s: Step): (t: int)
    ensures Truthy(s.rest) ==> t == s.rest.value
    ensures !Truthy(s.rest) ==> t == 30
  {
    if Truthy(s.rest) then s.rest.value else 30
  }

  /** The plan: eight steps with distinct ids, each timed or with a rep label,
      every step with sets having three of them and a rest, warm-ups first,
      exercises next, cool-downs last. */
  function Plan(): (p: seq<Step>)
    ensures |p| == 8
    ensures forall i, j :: 0 <= i < j < |p| ==> p[i].id != p[j].id
    ensures forall i :: 0 <= i < |p| ==> p[i].duration.Some? || p[i].reps.Some?
    ensures forall i :: 0 <= i < |p| && p[i].sets.Some? ==> p[i].sets.value == 3 && p[i].rest.Some?
    ensures forall i :: 0 <= i < 3 ==> p[i].kind == Warmup
    ensures forall i :: 3 <= i < 6 ==> p[i].kind == Exercise
    ensures forall i :: 6 <= i < |p| ==> p[i].kind == Cooldown
  {
    [ Step("w1", "Neck Rotations", Warmup, Some(30), None, None, None,
           ["Slow, controlled circles", "Breathing deep"], Stretch),
      Step("w2", "Arm Circles", Warmup, Some(45), None, None, None,
           ["Start small, get bigger", "Keep shoulders down"], Stretch),
      Step("w3", "Hip Openers", Warmup, Some(60), None, None, None,
           ["Lift knee high", "Rotate outward"], Legs),
      Step("e1", "Push-Ups", Exercise, None, Some("12-15"), Some(3), Some(60),
           ["Core tight", "Chest to floor", "Elbows at 45 degrees"], Push),
      Step("e2", "Squats", Exercise, None, Some("15-20"), Some(3), Some(60),
           ["Knees out", "Chest up", "Weight on heels"], Legs),
      Step("e3", "Plank Hold", Exercise, Some(45), None, Some(3), Some(45),
           ["Straight line", "Squeeze glutes", "Push floor away"], Stretch),
      Step("c1", "Child's Pose", Cooldown, Some(60), None, None, None,
           ["Reach arms forward", "Sink hips back"], Stretch),
      Step("c2", "Deep Breathing", Cooldown, Some(60), None, None, None,
           ["Inhale 4s", "Hold 4s", "Exhale 4s"], Cardio) ]
  }
}

=== FILE: session.dfy ===
/** The guided-workout session (app/workout/page.tsx): a state machine over the
    static plan with phases preview, active, rest and complete. The source's
    one-second interval is the explicit `Tick` event; each handler is a transition
    function on one immutable state value. */
module WorkoutSession {
  import opened Wrappers
  import opened WorkoutPlan
  import Numbers

  datatype Phase = Preview | Active | Rest | Complete

  datatype Session = Session(stepIndex: int, phase: Phase, currentSet: int, timer: int, running: bool)

  /** The user's signals and the timer's tick. `SetDone` is the primary button of
      the active view, `SkipRest` the button of the rest overlay, `TogglePause` the
      stop/resume link under a running countdown. */
  datatype Event = Start | SetDone | SkipRest | TogglePause | Tick

  /** The state a session starts in: the first step's preview, set 1, no timer. */
  const Initial := Session(0, Preview, 1, 0, false)

  /** The step index points into the plan (the view reads the current step). */
  predicate InPlan(plan: seq<Step>, s: Session) {
    0 <= s.stepIndex < |plan|
  }

  /** The session invariant: the index stays in the plan, the set number in
      [1, set limit], no countdown runs in a preview or after completion or in a
      rep-based set, a rest always counts down and is followed either by another
      set or by a next step, and completion happens on the last step. */
  predicate Valid(plan: seq<Step>, s: Session) {
    && InPlan(plan, s)
    && 1 <= s.currentSet <= SetLimit(plan[s.stepIndex])
    && (s.phase == Preview ==> !s.running && s.currentSet == 1)
    && (s.phase == Complete ==> !s.running && s.stepIndex == |plan| - 1)
    && (s.phase == Rest ==>
          s.running && (SetsRemain(plan[s.stepIndex], s.currentSet) || s.stepIndex < |plan| - 1))
    && (s.phase == Active && !TimeBased(plan[s.stepIndex]) ==> !s.running)
  }

  /** `startStep`: enter the active phase; a timed step starts its countdown from
      its duration (60 when that is 0), a rep-based step starts none. */
  function StartStep(plan: seq<Step>, s: Session): (r: Session)
    requires InPlan(plan, s)
    ensures r.phase == Active
    ensures r.stepIndex == s.stepIndex && r.currentSet == s.currentSet
    ensures TimeBased(plan[s.stepIndex]) ==> r.running && r.timer == DurationOrDefault(plan[s.stepIndex])
    ensures !TimeBased(plan[s.stepIndex]) ==> r.running == s.running && r.timer == s.timer
  {
    var step := plan[s.stepIndex];
    if TimeBased(step) then s.(phase := Active, timer := DurationOrDefault(step), running := true)
    else s.(phase := Active)
  }

  /** `completeStep`: the next step's preview, from set 1. */
  function CompleteStep(s: Session): (r: Session)
    ensures r.stepIndex == s.stepIndex + 1 && r.currentSet == 1 && r.phase == Preview
    ensures r.timer == s.timer && r.running == s.running
  {
    s.(stepIndex := s.stepIndex + 1, currentSet := 1, phase := Preview)
  }

  /** `handleSetComplete`: stop the timer; with sets left, rest for the step's rest
      time (30 by default) on the same set number; with the step finished and a next
      step present, an exercise rests 60 seconds while a warm-up or cool-down goes
      straight to the next preview; finishing the last step completes the workout. */
  function HandleSetComplete(plan: seq<Step>, s: Session): (r: Session)
    requires InPlan(plan, s)
    ensures SetsRemain(plan[s.stepIndex], s.currentSet) ==>
      r == s.(phase := Rest, timer := RestOrDefault(plan[s.stepIndex]), running := true)
    ensures !SetsRemain(plan[s.stepIndex], s.currentSet) && s.stepIndex < |plan| - 1 ==>
      if plan[s.stepIndex].kind == Exercise then r == s.(phase := Rest, timer := 60, running := true)
      else r == Session(s.stepIndex + 1, Preview, 1, s.timer, false)
    ensures !SetsRemain(plan[s.stepIndex], s.currentSet) && s.stepIndex == |plan| - 1 ==>
      r == s.(phase := Complete, running := false)
  {
    var stopped := s.(running := false);
    var step := plan[s.stepIndex];
    if SetsRemain(step, s.currentSet) then
      stopped.(phase := Rest, timer := RestOrDefault(step), running := true)
    else if s.stepIndex < |plan| - 1 then
      if step.kind == Exercise then stopped.(phase := Rest, timer := 60, running := true)
      else CompleteStep(stopped)
    else
      stopped.(phase := Complete)
  }

  /** `nextPhase`, run when a rest ends: with sets left, the next set of the same
      step becomes active, and a timed step restarts its countdown; otherwise the
      next step's preview. */
  function NextPhase(plan: seq<Step>, s: Session): (r: Session)
    requires InPlan(plan, s)
    ensures SetsRemain(plan[s.stepIndex], s.currentSet) ==>
      r.phase == Active && r.stepIndex == s.stepIndex && r.currentSet == s.currentSet + 1
    ensures SetsRemain(plan[s.stepIndex], s.currentSet) && TimeBased(plan[s.stepIndex]) ==>
      r.running && r.timer == DurationOrDefault(plan[s.stepIndex])
    ensures !SetsRemain(plan[s.stepIndex], s.currentSet) ==>
      r.phase == Preview && r.stepIndex == s.stepIndex + 1 && r.currentSet == 1
    ensures !(SetsRemain(plan[s.stepIndex], s.currentSet) && TimeBased(plan[s.stepIndex])) ==>
      r.timer == s.timer && r.running == s.running
  {
    if SetsRemain(plan[s.stepIndex], s.currentSet) then StartStep(plan, s.(currentSet := s.currentSet + 1))
    else CompleteStep(s)
  }

  /** `handleTimerComplete`, run when a running countdown reaches zero and by the
      Skip button: stop the timer, then end the rest or the timed set. */
  function HandleTimerComplete(plan: seq<Step>, s: Session): (r: Session)
    requires InPlan(plan, s)
    ensures s.phase == Rest ==> r == NextPhase(plan, s.(running := false))
    ensures s.phase == Active && TimeBased(plan[s.stepIndex]) ==>
      r == HandleSetComplete(plan, s.(running := false))
    ensures s.phase != Rest && !(s.phase == Active && TimeBased(plan[s.stepIndex])) ==>
      r == s.(running := false)
  {
    var stopped := s.(running := false);
    if s.phase == Rest then NextPhase(plan, stopped)
    else if s.phase == Active && TimeBased(plan[s.stepIndex]) then HandleSetComplete(plan, stopped)
    else stopped
  }

  /** One run of the timer effect: a running countdown above zero loses exactly one
      second and nothing else changes; a running countdown at zero fires the timer
      completion; otherwise nothing happens. */
  function TickOnce(plan: seq<Step>, s: Session): (r: Session)
    requires InPlan(plan, s)
    ensures s.running && s.timer > 0 ==> r == s.(timer := s.timer - 1)
    ensures s.running && s.timer == 0 ==> r == HandleTimerComplete(plan, s)
    ensures !s.running || s.timer < 0 ==> r == s
  {
    if s.running && s.timer > 0 then s.(timer := s.timer - 1)
    else if s.timer == 0 && s.running then HandleTimerComplete(plan, s)
    else s
  }

  /** One event, accepted only where the view offers it: Start in a preview, the
      set button while active, Skip during a rest, the pause link while a timed step
      is active; the tick is always delivered. An event the view does not offer
      leaves the state unchanged. */
  function Next(plan: seq<Step>, s: Session, e: Event): (r: Session)
    requires InPlan(plan, s)
    ensures e == Start ==> r == if s.phase == Preview then StartStep(plan, s) else s
    ensures e == SetDone ==> r == if s.phase == Active then HandleSetComplete(plan, s) else s
    ensures e == SkipRest ==> r == if s.phase == Rest then HandleTimerComplete(plan, s) else s
    ensures e == TogglePause && !(s.phase == Active && TimeBased(plan[s.stepIndex])) ==> r == s
    ensures e == TogglePause && s.phase == Active && TimeBased(plan[s.stepIndex]) ==>
      r == s.(running := !s.running)
    ensures e == Tick ==> r == TickOnce(plan, s)
  {
    match e
    case Start => if s.phase == Preview then StartStep(plan, s) else s
    case SetDone => if s.phase == Active then HandleSetComplete(plan, s) else s
    case SkipRest => if s.phase == Rest then HandleTimerComplete(plan, s) else s
    case TogglePause =>
      if s.phase == Active && TimeBased(plan[s.stepIndex]) then s.(running := !s.running) else s
    case Tick => TickOnce(plan, s)
  }

  /** A session starts valid: the first step's preview over the real plan. */
  lemma InitialValid()
    ensures Valid(Plan(), Initial)
  {
  }

  /** Every event keeps the session invariant. */
  lemma NextPreservesValid(plan: seq<Step>, s: Session, e: Event)
    requires Valid(plan, s)
    ensures Valid(plan, Next(plan, s, e))
  {
  }

  /** The pause link flips only whether the countdown runs. */
  lemma TogglePauseOnlyFlips(plan: seq<Step>, s: Session)
    requires InPlan(plan, s) && s.phase == Active && TimeBased(plan[s.stepIndex])
    ensures Next(plan, s, TogglePause) == s.(running := !s.running)
    ensures Next(plan, Next(plan, s, TogglePause), TogglePause) == s
  {
  }

  /** Completion is terminal: no event changes a completed session. */
  lemma CompleteIsTerminal(plan: seq<Step>, s: Session, e: Event)
    requires Valid(plan, s) && s.phase == Complete
    ensures Next(plan, s, e) == s
  {
  }

  /** The state after a sequence of events. */
  function Run(plan: seq<Step>, s: Session, events: seq<Event>): (r: Session)
    requires Valid(plan, s)
    ensures Valid(plan, r)
    decreases |events|
  {
    if |events| == 0 then s
    else
      NextPreservesValid(plan, s, events[0]);
      Run(plan, Next(plan, s, events[0]), events[1..])
  }

  /** Any sequence of events from a completed session leaves it as it was. */
  lemma {:induction false} CompleteStaysComplete(plan: seq<Step>, s: Session, events: seq<Event>)
    requires Valid(plan, s) && s.phase == Complete
    ensures Run(plan, s, events) == s
    decreases |events|
  {
    if |events| > 0 {
      CompleteIsTerminal(plan, s, events[0]);
      CompleteStaysComplete(plan, s, events[1..]);
    }
  }

  /** `formatTime`: minutes (floored), a colon, and the seconds (JavaScript's
      truncating remainder) padded to two digits when below ten. For a
      non-negative count the text has the shape m:ss, the seconds field is below
      60, the two fields recombine to the count, so the minutes are the whole
      minutes of the count, and the minutes carry no leading zero. */
  function FormatTime(seconds: int): (t: string)
    ensures seconds >= 0 ==>
      |t| >= 4 && t[|t| - 3] == ':'
      && Numbers.AllDigits(t[..|t| - 3]) && Numbers.AllDigits(t[|t| - 2..])
      && Numbers.ParseNat(t[|t| - 2..]) < 60
      && Numbers.ParseNat(t[..|t| - 3]) * 60 + Numbers.ParseNat(t[|t| - 2..]) == seconds
    ensures seconds >= 0 ==> (t[0] == '0' ==> |t| == 4)
  {
    var m := seconds / 60;
    var s := Numbers.JsRem(seconds, 60);
    var t := Numbers.IntToString(m) + ":" + SecondsField(s);
    if seconds >= 0 then
      WholeMinutes(seconds);
      MinutesSecondsText(m, s);
      t
    else t
  }

  /** The seconds part of `formatTime`: a "0" in front of a single digit. */
  function SecondsField(s: int): string {
    (if s < 10 then "0" else "") + Numbers.IntToString(s)
  }

  /** The floored minutes and JavaScript's remainder split a non-negative count. */
  lemma WholeMinutes(seconds: int)
    requires seconds >= 0
    ensures seconds / 60 >= 0 && 0 <= Numbers.JsRem(seconds, 60) < 60
    ensures (seconds / 60) * 60 + Numbers.JsRem(seconds, 60) == seconds
  {
  }

  /** Whole minutes and a seconds value below 60 give an m:ss text whose fields
      read back as the two values, with no leading zero on the minutes. */
  lemma MinutesSecondsText(m: int, s: int)
    requires m >= 0 && 0 <= s < 60
    ensures var t := Numbers.IntToString(m) + ":" + SecondsField(s);
      && |t| >= 4 && t[|t| - 3] == ':'
      && Numbers.AllDigits(t[..|t| - 3]) && Numbers.AllDigits(t[|t| - 2..])
      && Numbers.ParseNat(t[..|t| - 3]) == m && Numbers.ParseNat(t[|t| - 2..]) == s
      && (t[0] == '0' ==> |t| == 4)
  {
    TwoDigitSeconds(s);
    SplitAtColon(Numbers.IntToString(m), SecondsField(s));
  }

  /** A seconds value below 60 gives a two-digit field that reads back as itself. */
  lemma TwoDigitSeconds(s: int)
    requires 0 <= s < 60
    ensures |SecondsField(s)| == 2 && Numbers.AllDigits(SecondsField(s))
    ensures Numbers.ParseNat(SecondsField(s)) == s
  {
    var ss := Numbers.IntToString(s);
    if s < 10 {
      var tail := "0" + ss;
      assert ss == [Numbers.DigitChar(s)];
      assert tail[..|tail| - 1] == "0";
      assert tail[|tail| - 1] == Numbers.DigitChar(s);
      assert Numbers.ParseNat("0") == 0 by {
        assert "0"[..0] == "";
      }
    } else {
      assert SecondsField(s) == ss;
    }
  }

  /** The two sides of the colon of `left + ":" + right`, for a two-character right side. */
  lemma SplitAtColon(left: string, right: string)
    requires |left| >= 1 && |right| == 2
    ensures var t := left + ":" + right;
      t[|t| - 3] == ':' && t[..|t| - 3] == left && t[|t| - 2..] == right
      && t[0] == left[0] && |t| == |left| + 3
  {
  }

  /** Reads an m:ss text back into seconds. */
  function ParseTime(t: string): Option<int> {
    if |t| >= 4 && t[|t| - 3] == ':'
       && Numbers.AllDigits(t[..|t| - 3]) && Numbers.AllDigits(t[|t| - 2..])
    then Some(Numbers.ParseNat(t[..|t| - 3]) * 60 + Numbers.ParseNat(t[|t| - 2..]))
    else None
  }

  /** For a non-negative count the text reads back as the count, and its seconds
      field is below 60, so no other split of the count (such as "0:75") is
      produced. */
  lemma FormatTimeRoundTrip(seconds: int)
    requires seconds >= 0
    ensures ParseTime(FormatTime(seconds)) == Some(seconds)
    ensures var t := FormatTime(seconds); Numbers.ParseNat(t[|t| - 2..]) < 60
  {
  }
}

=== FILE: session_examples.dfy ===
/** Traces of the session over the actual plan. */
module SessionExamples {
  import opened WorkoutPlan
  import opened WorkoutSession

  /** Push-ups (three rep-based sets, 60 s rest): done and skip alternate through
      sets 1 to 3 on the same step; the last set of this exercise inserts a 60 s
      rest before the squats preview. */
  lemma PushUpsTrace()
    ensures var p := Plan();
      var s0 := Session(3, Preview, 1, 0, false);
      var s1 := Next(p, s0, Start);
      var s2 := Next(p, s1, SetDone);
      var s3 := Next(p, s2, SkipRest);
      var s4 := Next(p, s3, SetDone);
      var s5 := Next(p, s4, SkipRest);
      var s6 := Next(p, s5, SetDone);
      var s7 := Next(p, s6, SkipRest);
      && s1 == Session(3, Active, 1, 0, false)
      && s2 == Session(3, Rest, 1, 60, true)
      && s3 == Session(3, Active, 2, 60, false)
      && s4 == Session(3, Rest, 2, 60, true)
      && s5 == Session(3, Active, 3, 60, false)
      && s6 == Session(3, Rest, 3, 60, true)
      && s7 == Session(4, Preview, 1, 60, false)
  {
  }

  /** A warm-up starts its countdown from its duration and, once done, goes
      straight to the next preview with no rest. */
  lemma WarmupTrace()
    ensures var p := Plan();
      var s1 := Next(p, Initial, Start);
      var s2 := Next(p, s1, SetDone);
      && s1 == Session(0, Active, 1, 30, true)
      && s2 == Session(1, Preview, 1, 30, false)
  {
  }

  /** A running countdown loses a second per tick, and the tick at zero ends the
      set; at the last step that completes the workout. */
  lemma CountdownTrace()
    ensures var p := Plan();
      var s0 := Session(7, Active, 1, 2, true);
      var s1 := Next(p, s0, Tick);
      var s2 := Next(p, s1, Tick);
      var s3 := Next(p, s2, Tick);
      && s1 == Session(7, Active, 1, 1, true)
      && s2 == Session(7, Active, 1, 0, true)
      && s3 == Session(7, Complete, 1, 0, false)
  {
  }
}

=== FILE: stats.dfy ===
/** The six tracked quantities that both the XP formula and the achievement
    catalogue read (app/lib/titan-levels.ts and app/lib/features.ts take the same
    inline record). Weight, calories, water and sleep come from `parseFloat`, so
    they are reals and may be fractional or negative; workout count and streak
    are whole numbers. */
module Stats {

  datatype Stats = Stats(
    workouts: int,
    weight: real,
    calories: real,
    water: real,
    sleep: real,
    streak: int)

  /** `a` is at most `b` in every field. */
  predicate AtMost(a: Stats, b: Stats) {
    && a.workouts <= b.workouts
    && a.weight <= b.weight
    && a.calories <= b.calories
    && a.water <= b.water
    && a.sleep <= b.sleep
    && a.streak <= b.streak
  }

  /** Every field is non-negative, as it is for values the dashboard produces from
      non-negative input. */
  predicate NonNegative(s: Stats) {
    s.workouts >= 0 && s.weight >= 0.0 && s.calories >= 0.0
    && s.water >= 0.0 && s.sleep >= 0.0 && s.streak >= 0
  }
}

=== FILE: wrappers.dfy ===
/** The optional-value wrapper shared by the model: JavaScript's `undefined`/`null`
    results and optional record fields become `None`. */
module Wrappers {

  datatype Option<+T> = None | Some(value: T) {

    /** The wrapped value, or `default` when there is none (JavaScript's `x ?? d`). */
    function GetOr(default: T): (r: T)
      ensures Some? ==> r == value
      ensures None? ==> r == default
    {
      match this
      case Some(v) => v
      case None => default
    }
  }
}
